=== FILE: README.md ===
# Ink2Deck decision logic in Dafny

Ink2Deck is a Streamlit app. A user photographs a whiteboard and uploads the
picture. The app extracts the text, using Google Gemini when an API key is set
and Tesseract OCR otherwise, and turns it into a PowerPoint deck. Access sits
behind a username/password store. This project models the decision logic
under the UI, with the external services replaced by parameters:

- **Navigation** (`navigation.dfy`): the session `{page, logged_in, username}`,
  the buttons that move between the `home`, `login` and `upload` pages, the
  redirect of a logged-out `upload` render, and the router.
- **Accounts** (`accounts.dfy`): sign-up validation in its source order (terms,
  filled fields, duplicate username or email), insertion, and the login check.
  The hash is a parameter.
- **Extraction** (`extraction.dfy`): the Gemini-then-Tesseract fallback. The
  two engines and Otsu's cutoff choice are oracles.
- **Imaging** (`imaging.dfy`): OpenCV `THRESH_BINARY` at the fixed cutoff 150,
  and the channel check of `cvtColor(..., COLOR_RGB2GRAY)`.
- **Deck** (`deck.dfy`): the slide plan. It is a title slide, a picture slide,
  then one "Slide i" per non-blank `"\n\n"`-separated paragraph.
- **Pipeline** (`pipeline.dfy`): the upload handler and its "no text detected" gate.
- **PyText** (`pytext.dfy`): the Python string behaviour all of the above rely
  on. This is `str.strip()` with Python's whitespace set, `str.split(sep)`, and
  `str(int)`.

The user collection is a sequence in insertion order. A lookup returns the
first match, as an unsorted MongoDB `find_one` does. `Accounts.AuthenticateIff`
shows that with unique usernames, which sign-up maintains, this is the same as
"some record matches".

Three behaviours of `app.py` worth stating up front:

- Sign-up rejects a new account when its username or its email is already
  present (app.py:489). A duplicate of either one is enough.
- `extract_text_with_tesseract` is meant to run Tesseract on an image it
  binarises itself with Otsu's method (its docstring at app.py:550 and the
  comment at app.py:558). As written it cannot, because of the image it is
  given (see Findings). The model keeps both the as-written step and the
  corrected step.
- Going back to the landing page does not log the user out (app.py:500-502, 690-692).

## Model

| member | source | states |
|---|---|---|
| Navigation.InitialInvariant | app.py:19-24 | A fresh session (home page, logged out, empty username) over a well-formed store satisfies the navigation invariant |
| Navigation.GetStartedOpensLogin | app.py:347-348 | Get Started on the landing page moves to the login page and changes nothing else |
| Navigation.LoginTransition | app.py:465-473 | With unique usernames (which sign-up keeps), a login reaches the upload page logged in as `u` exactly when some record pairs `u` with `hash(p)`; otherwise the session is unchanged; the store is never changed |
| Navigation.BackToHomeOnlyMovesPage | app.py:500-502 | Back to Home on the login page, or on the upload page (lines 690-692, 707-708), sets the page to home and leaves the login flag, the username and the users alone |
| Navigation.LogoutKeepsUsername | app.py:664-668 | Logout (here and at lines 702-704) clears the login flag and shows the login page, and the username stays as it was |
| Navigation.Guard | app.py:518-521 | Rendering the upload page while logged out moves to the login page, and this is the only case in which the page changes. A render never shows the upload page to a logged-out user and never touches the flag or the username |
| Navigation.LoggedOutUploadRedirects | app.py:518-522 | Whatever the event, a logged-out session on the upload page ends on the login page with the event unhandled |
| Navigation.Step | app.py:716-721 | The router handles one event on the rendered page. Only a sign-up on the login page can change the users, and a sign-up never changes the session. Only a login submitted on the login page, with the store configured and `Authenticate` succeeding, can enter the upload page, logged in as the submitted username. Past the logged-out redirect, the session changes only through Get Started on the landing page, a login or Back to Home on the login page, and Logout or Back to Home on the upload page |
| Navigation.ButtonsShown | app.py:643-709 | The upload page renders Logout and Back to Home before a file is chosen (lines 698-709) and after text was found (lines 663-692), and on no other panel |
| Navigation.UploadButtonsHidden | app.py:693-697 | After "No text detected" or a processing error, the upload page offers no way off it: every event leaves the session and the users unchanged |
| Navigation.StepPreservesInvariant | app.py:716-721 | Every step keeps the store well formed, keeps the upload page for logged-in users, and keeps a logged-in username registered |
| Navigation.RunPreservesInvariant | app.py:716-721 | The invariant holds after any sequence of events |
| Navigation.GuardNeverFiresWhenReachable | app.py:518-521 | From a fresh session, no sequence of events reaches a state in which the logged-out redirect fires |
| Accounts.FindOne | app.py:466 | The lookup returns the first record that matches the query, or nothing when no record matches |
| Accounts.Signup | app.py:484-498 | Terms, then filled fields, then duplicates are checked in that order. A rejection leaves the users unchanged. Success appends exactly one record, which holds `hash(password)` in place of the password |
| Accounts.Authenticate | app.py:466-467 | A successful login implies a record with that username whose stored password equals the hash of the given one |
| Accounts.AuthenticateIff | app.py:466-473 | With unique usernames, a login succeeds if and only if some record pairs the username with `hash(password)` |
| Accounts.WrongPasswordRefused | app.py:466-473 | A known username with a password whose hash differs from the stored one is refused |
| Accounts.EmptyUsernameRefused | app.py:466-467 | Over records created by sign-up, whose fields are non-empty (line 487), the empty username never logs in |
| Accounts.SignupPreservesWellFormed | app.py:485-497 | Sign-up keeps usernames unique, emails unique and every field non-empty |
| Accounts.SignupThenLogin | app.py:492-497 | A user who has just signed up can log in with the same password, even in a store whose earlier records are not unique |
| Imaging.Threshold | app.py:528 | `THRESH_BINARY`: shape kept; a pixel becomes `maxval` when strictly above the cutoff and 0 otherwise |
| Imaging.ToGray | app.py:527 | RGB-to-gray conversion succeeds exactly for 3- and 4-channel images |
| Imaging.Preprocess | app.py:524-529 | Preprocessing fails exactly when gray conversion fails |
| Imaging.PreprocessIsBinary | app.py:524-529 | A preprocessed image is single-channel and keeps the input's shape. Every pixel is 0 or 255, and it is 255 exactly when the input is above 150 |
| Imaging.ThresholdIdempotent | app.py:528 | Thresholding a binarised plane again at any cutoff below 255 gives the same plane. This covers the fixed policy twice and the Otsu pass at line 559 after either |
| Imaging.PreprocessIdempotent | app.py:528 | Applying the fixed threshold to a preprocessed image changes nothing |
| Extraction.KeyConfigured | app.py:573 | `os.getenv("GEMINI_API_KEY")` is truthy: the variable is set and not empty |
| Extraction.GeminiText | app.py:531-547 | The Gemini step never raises. A non-empty result is the response's text, and a response without text or a raised call gives "" |
| Extraction.OcrText | app.py:564-567 | The OCR step yields the engine's text, or "" when it raises |
| Extraction.TesseractTextAsWritten | app.py:549-567 | For a 3- or 4-channel input the fallback reads the Otsu-binarised gray plane. For any other channel count `cvtColor` raises and the `except` yields "" |
| Extraction.TesseractAsWrittenIgnoresEngine | app.py:553-559 | Given the preprocessed single-channel image, the as-written fallback yields "" whatever the OCR engine would read |
| Extraction.TesseractText | app.py:549-567 | The corrected fallback reads the Otsu-binarised plane of a 1-, 3- or 4-channel image, and yields "" for any other channel count |
| Extraction.OcrOnPlane | app.py:559-564 | The local engine reads the plane binarised at Otsu's cutoff. Its text is the result, or "" when it raises |
| Extraction.ExtractText | app.py:569-581 | Corrected pipeline. A non-blank cloud answer under a configured key is returned verbatim and only Gemini is consulted. Otherwise Tesseract is consulted and its text is returned, which for a single-channel image is the engine's reading of the Otsu plane |
| Extraction.ExtractTextAsWritten | app.py:569-581 | As-written pipeline. It selects the same way, but when Gemini gives nothing for a single-channel image the result is "" |
| Extraction.Select | app.py:569-581 | The Gemini text is the result exactly when a key is configured and the text is non-blank. Otherwise the Tesseract text is the result. Tesseract is consulted in exactly that other case, after Gemini |
| Extraction.SelectIsStrategyList | app.py:572-579 | The selection equals running the ordered strategy list [Gemini if configured, Tesseract] up to the first non-blank output, with the last strategy's output taken as is |
| Extraction.CloudTextWins | app.py:573-576 | With a key set and a non-blank cloud answer, the result is that answer verbatim and only Gemini is consulted |
| Extraction.FallbackReadsOtsuPlane | app.py:578-579 | Otherwise the result is the OCR engine's reading of the Otsu-binarised plane, and Tesseract is consulted |
| Extraction.AllFailuresYieldEmpty | app.py:545-567 | When every engine fails, the extraction yields "" instead of raising: the Gemini handler (lines 545-547) and the Tesseract handler (lines 565-567) each turn a raise into "" |
| Extraction.AsWrittenFallbackAlwaysEmpty | app.py:640-641 | As written, any successfully preprocessed upload that Gemini does not answer extracts to "" |
| Extraction.AsWrittenCounterexample | app.py:556 | For a 1x1 RGB photo with no key and an OCR engine that reads "x", the as-written pipeline gives "" and the corrected one gives "x" |
| Deck.Kept | app.py:597 | A single chunk contributes at most one paragraph, and what it contributes is stripped and non-blank |
| Deck.KeepNonBlank | app.py:597 | Every kept paragraph is stripped and non-blank, and there are no more paragraphs than chunks |
| Deck.KeepNonBlankAppend | app.py:597 | Paragraph selection distributes over concatenation of chunk lists, so the paragraphs keep input order |
| Deck.KeepNonBlankEmptyIff | app.py:597 | No paragraph is kept exactly when every chunk is blank |
| Deck.NonBlankChunksEmptyIffBlank | app.py:597 | No `"\n\n"`-separated chunk is non-blank if and only if the text is empty or all whitespace. The proof goes through the split/join round trip |
| Deck.Paragraphs | app.py:597 | Each paragraph is stripped, non-blank and free of `"\n\n"`. There are no paragraphs exactly when the text is blank |
| Deck.ContentSlidesNonBlank | app.py:597-601 | Content slides built over non-blank paragraphs have non-blank bodies |
| Deck.ContentSlideTitlesDistinct | app.py:598-600 | Content slides numbered from 1 have pairwise distinct "Slide i" titles |
| Deck.KeptKeepsFree | app.py:597 | Stripping a chunk that holds no `"\n\n"` leaves a paragraph that holds none either |
| Deck.KeepNonBlankKeepsFree | app.py:597 | If no chunk holds `"\n\n"`, no kept paragraph does |
| Deck.AssembleDeck | app.py:586-603 | For any paragraph list: the fixed title slide, the picture slide at (1, 1) inches 6 inches wide, then "Slide i" holding paragraph i in 18 pt, with pairwise distinct content titles |
| Deck.SlideTitle | app.py:600 | `f"Slide {i}"` is "Slide " followed by decimal digits that read back as `i` |
| Deck.SlideTitleInjective | app.py:600 | Two "Slide i" titles are equal exactly when their numbers are |
| Deck.BuildDeck | app.py:583-603 | The deck has 2 plus the paragraph count of slides: the fixed title slide, the picture slide, then "Slide i" for i = 1..n with the i-th paragraph in 18 pt. Blank text yields exactly 2 slides, no content slide is blank, and content titles are distinct |
| Deck.TwoParagraphExample | app.py:597-601 | `"Hello world\n\nSecond idea"` has the two paragraphs "Hello world" and "Second idea" |
| Deck.ExampleDeck | app.py:583-603 | The deck built from `"Hello world\n\nSecond idea"` has four slides, with "Slide 1" holding "Hello world" and "Slide 2" holding "Second idea" |
| Pipeline.HandleUpload | app.py:635-697 | Uses the corrected extraction (see Findings). An unconvertible image gives the generic error. A blank extraction gives "no text detected" and no deck. Otherwise the deck has 2 plus the paragraph count of slides, with at least one content slide: the fixed title slide, the picture slide with the original image, then "Slide i" holding the i-th paragraph of the extracted text in 18 pt |
| PyText.Strip | app.py:575 | `strip()` returns a slice of its input with only whitespace cut from either end, and it neither starts nor ends with whitespace |
| PyText.BlankIffAllSpace | app.py:575 | A string strips to "" exactly when every character is Python whitespace |
| PyText.StripUnpadded | app.py:597 | A string with no whitespace at either end is left unchanged by `strip()` |
| PyText.StripIdempotent | app.py:597 | Stripping twice equals stripping once |
| PyText.Find | app.py:597 | The search returns the leftmost occurrence of the separator at or after the start, or nothing when there is none |
| PyText.Split | app.py:597 | Splitting gives at least one piece, no piece contains the separator, and every piece but the last ends at the leftmost occurrence of the separator after its start, as `str.split` scans. With `JoinSplit` this fixes the pieces |
| PyText.PieceEndsAtLeftmost | app.py:597 | A piece cut at the leftmost occurrence of the separator after its start contains no earlier occurrence, even one overlapping the closing separator |
| PyText.JoinSplit | app.py:597 | Joining the pieces back with the separator gives the input |
| PyText.Decimal | app.py:600 | `str(i)` is a non-empty digit string without a leading zero, except for 0 |
| PyText.ParseDecimalRoundTrip | app.py:600 | Reading the rendered digits back gives the number |
| PyText.DecimalInjective | app.py:600 | Distinct numbers render differently |

## Findings

| source | as written | input that shows it | evidently intended | confidence | as-written member | corrected member |
|---|---|---|---|---|---|---|
| app.py:556 | `extract_text_with_tesseract` always calls `cv2.cvtColor(img, COLOR_RGB2GRAY)`. The pipeline (lines 640-641) hands it the already binarised image, which has one channel, so OpenCV rejects it and the `except` returns "". The local fallback therefore never yields text | No `GEMINI_API_KEY`, any RGB photo of text: the extraction is "" and the page says "No text detected" | The fallback runs Otsu binarisation and Tesseract on the gray plane of the image it is given (a gray image is used as is) and returns what Tesseract reads | high, not executed | Extraction.AsWrittenFallbackAlwaysEmpty | Extraction.FallbackReadsOtsuPlane |

`Extraction.TesseractTextAsWritten` and `Extraction.AsWrittenCounterexample`
model the code as written. `Extraction.TesseractText` is the corrected step,
and `Extraction.ExtractText` and `Pipeline.HandleUpload` use it. With this
fix, Otsu's cutoff on the already binary plane changes nothing
(`Imaging.ThresholdIdempotent`), so Tesseract reads the fixed-threshold plane.
The other plausible fix would hand Tesseract the original image, so that the
two thresholding policies stay distinct. That fix is not modelled.

## Left out

- Streamlit rendering, CSS, HTML, the landing-page markup, the background-image probing (app.py:26-343) and the chatbot markup (app.py:351-362) and the chatbot script (app.py:723-748): pure UI and filesystem I/O.
- The MongoDB connection (app.py:434-450). The store is an in-memory sequence, and a missing `MONGO_URI` is a boolean in `Navigation.Env`. A driver call that raises at run time is not modelled.
- The check-then-insert race in sign-up (app.py:489-492): concurrency.
- SHA-256 (app.py:467, 496): a parameter `hash`. `Accounts.SignupPreservesWellFormed` assumes only that it never returns "".
- The Gemini request (model name, prompt, PNG encoding; app.py:511-513, 533-542) and Tesseract itself (app.py:564): network and external engines, modelled as oracle outcomes. The `st.warning` messages are not modelled.
- Otsu's cutoff selection (app.py:559): an oracle `otsu` in `Extraction.Services`.
- Imaging.ToGray: the RGB-to-gray arithmetic (app.py:527, 556) is not modelled. An image carries its channel count and the gray plane the conversion would yield, so only the channel check is exact.
- Pipeline.HandleUpload: the generic exception handler (app.py:696-697) is modelled only for the channel-count failure of preprocessing. Undecodable files in `Image.open` and failures inside python-pptx or fpdf are not modelled.
- `create_pdf` (app.py:610-630), the font fallback, the latin-1 re-encoding and the `.pptx` serialisation (app.py:585-595, 605-608): thin wrappers over fpdf and python-pptx. The deck is modelled as its slide plan.
- The download buttons and their fixed file names (app.py:670-684): UI output.
- The outer `except Exception: return ""` of `extract_text_with_ocr` (app.py:580-581) has nothing to catch in the model, because both extractors are total functions.
- The "Welcome, user" line (app.py:516) is written before the login check: UI text.

=== FILE: accounts.dfy ===
/**
 The account rules of the login page. The user collection is an in-memory
 sequence in insertion order (a lookup returns the first match, as an
 unsorted `find_one` does), and the password hash is a parameter.
 */
module Accounts {
  import opened Wrappers

  datatype UserRecord = UserRecord(name: string, email: string, username: string, password: string)

  /** The sign-up form as submitted. */
  datatype SignupForm = SignupForm(name: string, email: string, username: string, password: string, termsAccepted: bool)

  /** Which message a sign-up submission ends with. */
  datatype SignupOutcome = TermsNotAccepted | MissingField | AlreadyExists | Created

  datatype SignupResult = SignupResult(outcome: SignupOutcome, users: seq<UserRecord>)

  /** `find_one(query)`: the position of the first record the query matches. */
  function FindOne(users: seq<UserRecord>, query: UserRecord -> bool): (r: Option<nat>)
    ensures r.Some? ==> r.value < |users| && query(users[r.value])
    ensures r.Some? ==> forall j :: 0 <= j < r.value ==> !query(users[j])
    ensures r.None? ==> forall j :: 0 <= j < |users| ==> !query(users[j])
  {
    if users == [] then None
    else if query(users[0]) then Some(0)
    else match FindOne(users[1..], query)
      case None => None
      case Some(i) => Some(i + 1)
  }

  /** `all([name, email, username, password])`: no field is the empty string. */
  predicate Filled(form: SignupForm) {
    form.name != "" && form.email != "" && form.username != "" && form.password != ""
  }

  /** Some record already has this username or this email. */
  predicate Taken(users: seq<UserRecord>, username: string, email: string) {
    exists j :: 0 <= j < |users| && (users[j].username == username || users[j].email == email)
  }

  /**
   The sign-up handler: terms, then filled fields, then duplicates are checked
   in that order, and only a submission passing all three inserts, as its one
   new record, the form's data with the hash of the password in place of the
   password. Every rejection leaves the users unchanged.
   */
  function Signup(users: seq<UserRecord>, form: SignupForm, hash: string -> string): (r: SignupResult)
    ensures !form.termsAccepted ==> r.outcome == TermsNotAccepted
    ensures form.termsAccepted && !Filled(form) ==> r.outcome == MissingField
    ensures form.termsAccepted && Filled(form) && Taken(users, form.username, form.email) ==> r.outcome == AlreadyExists
    ensures r.outcome == Created <==> form.termsAccepted && Filled(form) && !Taken(users, form.username, form.email)
    ensures r.outcome != Created ==> r.users == users
    ensures r.outcome == Created ==>
              r.users == users + [UserRecord(form.name, form.email, form.username, hash(form.password))]
  {
    if !form.termsAccepted then SignupResult(TermsNotAccepted, users)
    else if !Filled(form) then SignupResult(MissingField, users)
    else if FindOne(users, (u: UserRecord) => u.username == form.username || u.email == form.email).Some? then
      SignupResult(AlreadyExists, users)
    else
      SignupResult(Created, users + [UserRecord(form.name, form.email, form.username, hash(form.password))])
  }

  /**
   The login check: the first record with this username is looked up and the
   login succeeds when its stored password equals the hash of the one given.
   */
  function Authenticate(users: seq<UserRecord>, username: string, password: string, hash: string -> string): (ok: bool)
    ensures ok ==> exists j :: 0 <= j < |users| && users[j].username == username && users[j].password == hash(password)
  {
    match FindOne(users, (u: UserRecord) => u.username == username)
    case None => false
    case Some(i) => users[i].password == hash(password)
  }

  /** Usernames are unique and so are emails. */
  predicate Unique(users: seq<UserRecord>) {
    forall i, j :: 0 <= i < j < |users| ==>
      users[i].username != users[j].username && users[i].email != users[j].email
  }

  /** Every record has all four fields filled. */
  predicate Complete(users: seq<UserRecord>) {
    forall i :: 0 <= i < |users| ==>
      users[i].name != "" && users[i].email != "" && users[i].username != "" && users[i].password != ""
  }

  /** The shape of a store that only sign-ups have written to. */
  predicate WellFormed(users: seq<UserRecord>) {
    Unique(users) && Complete(users)
  }

  /**
   With unique usernames the first-match lookup is immaterial: a login
   succeeds exactly when some record pairs the username with the hash of the
   password.
   */
  lemma AuthenticateIff(users: seq<UserRecord>, username: string, password: string, hash: string -> string)
    requires Unique(users)
    ensures Authenticate(users, username, password, hash) <==>
            exists j :: 0 <= j < |users| && users[j].username == username && users[j].password == hash(password)
  {
  }

  /** A right username with a wrong password is refused. */
  lemma WrongPasswordRefused(users: seq<UserRecord>, j: nat, password: string, hash: string -> string)
    requires Unique(users) && j < |users|
    requires users[j].password != hash(password)
    ensures !Authenticate(users, users[j].username, password, hash)
  {
  }

  /** Nobody can log in with an empty username. */
  lemma EmptyUsernameRefused(users: seq<UserRecord>, password: string, hash: string -> string)
    requires Complete(users)
    ensures !Authenticate(users, "", password, hash)
  {
  }

  /**
   Sign-up keeps the store well formed, provided the hash never yields the
   empty string (a SHA-256 hex digest is 64 characters).
   */
  lemma SignupPreservesWellFormed(users: seq<UserRecord>, form: SignupForm, hash: string -> string)
    requires WellFormed(users)
    requires forall p :: hash(p) != ""
    ensures WellFormed(Signup(users, form, hash).users)
  {
  }

  /** A user who has just signed up can log in with the same password. */
  lemma SignupThenLogin(users: seq<UserRecord>, form: SignupForm, hash: string -> string)
    requires Signup(users, form, hash).outcome == Created
    ensures Authenticate(Signup(users, form, hash).users, form.username, form.password, hash)
  {
    var n := Signup(users, form, hash).users;
    assert n[|users|].username == form.username;
    var found := FindOne(n, (u: UserRecord) => u.username == form.username);
    assert found.Some?;
  }
}

=== FILE: deck.dfy ===
/**
 The slide plan of `create_ppt_with_text_and_image`: a title slide, a slide
 holding the uploaded picture, then one content slide per paragraph of the
 extracted text. The plan is the sequence of slides, not the .pptx bytes.
 */
module Deck {
  import opened Wrappers
  import opened PyText
  import opened Imaging

  /** Paragraphs are separated by a blank line. */
  const ParagraphSeparator: string := "\n\n"

  const DeckTitle: string := "Whiteboard Content"
  const DeckSubtitle: string := "Automatically Generated from Image"

  /** Body text size of content slides, in points. */
  const BodyPt: nat := 18

  /** Placement of the picture, in inches: left, top and width. */
  const PictureLeft: nat := 1
  const PictureTop: nat := 1
  const PictureWidth: nat := 6

  datatype Slide =
    | TitleSlide(title: string, subtitle: string)
    | PictureSlide(picture: Image, left: nat, top: nat, width: nat)
    | ContentSlide(title: string, body: string, fontPt: nat)

  /**
   `[c.strip() for c in chunks if c.strip()]`: every kept paragraph is
   stripped and non-blank.
   */
  function KeepNonBlank(chunks: seq<string>): (r: seq<string>)
    ensures |r| <= |chunks|
    ensures forall i :: 0 <= i < |r| ==> !IsBlank(r[i]) && Strip(r[i]) == r[i]
  {
    if chunks == [] then []
    else
      var head := Kept(chunks[0]);
      var rest := KeepNonBlank(chunks[1..]);
      head + rest
  }

  /** What one chunk contributes: nothing when blank, else its stripped text. */
  function Kept(chunk: string): (r: seq<string>)
    ensures |r| <= 1
    ensures forall i :: 0 <= i < |r| ==> !IsBlank(r[i]) && Strip(r[i]) == r[i]
  {
    StripIdempotent(chunk);
    if IsBlank(chunk) then [] else [Strip(chunk)]
  }

  /**
   The paragraphs of the extracted text, in input order: each is stripped,
   non-blank and free of the blank-line separator, and there are none
   exactly when the text is blank.
   */
  function Paragraphs(text: string): (r: seq<string>)
    ensures forall i :: 0 <= i < |r| ==> !IsBlank(r[i]) && Strip(r[i]) == r[i]
    ensures forall i :: 0 <= i < |r| ==> Free(r[i], ParagraphSeparator)
    ensures r == [] <==> IsBlank(text)
  {
    var r := KeepNonBlank(Split(text, ParagraphSeparator));
    KeepNonBlankKeepsFree(Split(text, ParagraphSeparator), ParagraphSeparator);
    NonBlankChunksEmptyIffBlank(text);
    r
  }

  /** `f"Slide {i}"`. */
  function SlideTitle(i: nat): (r: string)
    ensures |r| > 6 && r[..6] == "Slide "
    ensures AllDigits(r[6..]) && ParseDecimal(r[6..]) == i
  {
    var t := "Slide " + Decimal(i);
    assert t[6..] == Decimal(i);
    ParseDecimalRoundTrip(i);
    t
  }

  /**
   Keeping the non-blank chunks distributes over concatenation: together with
   the one-chunk case below, this fixes the result as the stripped non-blank
   chunks in their original order.
   */
  lemma {:induction false} KeepNonBlankAppend(a: seq<string>, b: seq<string>)
    ensures KeepNonBlank(a + b) == KeepNonBlank(a) + KeepNonBlank(b)
  {
    if a == [] {
      assert a + b == b;
    } else {
      assert (a + b)[0] == a[0];
      assert (a + b)[1..] == a[1..] + b;
      KeepNonBlankAppend(a[1..], b);
      calc {
        KeepNonBlank(a + b);
        Kept(a[0]) + KeepNonBlank(a[1..] + b);
        Kept(a[0]) + (KeepNonBlank(a[1..]) + KeepNonBlank(b));
        (Kept(a[0]) + KeepNonBlank(a[1..])) + KeepNonBlank(b);
      }
    }
  }

  lemma KeepNonBlankSingle(c: string)
    ensures KeepNonBlank([c]) == if IsBlank(c) then [] else [Strip(c)]
  {
  }

  /** Nothing is kept exactly when every chunk is blank. */
  lemma {:induction false} KeepNonBlankEmptyIff(chunks: seq<string>)
    ensures KeepNonBlank(chunks) == [] <==> forall j :: 0 <= j < |chunks| ==> IsBlank(chunks[j])
  {
    if chunks != [] {
      KeepNonBlankEmptyIff(chunks[1..]);
      if KeepNonBlank(chunks) == [] {
        forall j | 0 <= j < |chunks| ensures IsBlank(chunks[j]) {
          if j > 0 {
            assert chunks[j] == chunks[1..][j - 1];
          }
        }
      }
    }
  }

  lemma AllSpaceConcat(a: string, b: string)
    ensures AllSpace(a + b) <==> AllSpace(a) && AllSpace(b)
  {
    if AllSpace(a + b) {
      forall i | 0 <= i < |b| ensures IsSpace(b[i]) {
        assert b[i] == (a + b)[|a| + i];
      }
      forall i | 0 <= i < |a| ensures IsSpace(a[i]) {
        assert a[i] == (a + b)[i];
      }
    }
  }

  /** A join of blank-line-separated pieces is all space exactly when every piece is. */
  lemma {:induction false} JoinAllSpace(parts: seq<string>)
    requires |parts| >= 1
    ensures AllSpace(Join(parts, ParagraphSeparator)) <==> forall j :: 0 <= j < |parts| ==> AllSpace(parts[j])
  {
    if |parts| > 1 {
      JoinAllSpace(parts[1..]);
      AllSpaceConcat(parts[0] + ParagraphSeparator, Join(parts[1..], ParagraphSeparator));
      AllSpaceConcat(parts[0], ParagraphSeparator);
      assert AllSpace(ParagraphSeparator);
      if forall j :: 1 <= j < |parts| ==> AllSpace(parts[j]) {
        forall j | 0 <= j < |parts| - 1 ensures AllSpace(parts[1..][j]) {
          assert parts[1..][j] == parts[j + 1];
        }
      }
      if forall j :: 0 <= j < |parts| - 1 ==> AllSpace(parts[1..][j]) {
        forall j | 1 <= j < |parts| ensures AllSpace(parts[j]) {
          assert parts[j] == parts[1..][j - 1];
        }
      }
    }
  }

  /** The text has no non-blank chunk exactly when it is blank. */
  lemma NonBlankChunksEmptyIffBlank(text: string)
    ensures KeepNonBlank(Split(text, ParagraphSeparator)) == [] <==> IsBlank(text)
  {
    var pieces := Split(text, ParagraphSeparator);
    JoinSplit(text, ParagraphSeparator);
    JoinAllSpace(pieces);
    KeepNonBlankEmptyIff(pieces);
    BlankIffAllSpace(text);
    forall j | 0 <= j < |pieces| ensures IsBlank(pieces[j]) <==> AllSpace(pieces[j]) {
      BlankIffAllSpace(pieces[j]);
    }
  }

  /** A slice of a string free of a separator is free of it too. */
  lemma SliceIsFree(t: string, sep: string, i: nat, j: nat)
    requires i <= j <= |t| && Free(t, sep)
    ensures Free(t[i..j], sep)
  {
    forall k: nat | k <= j - i && MatchAt(t[i..j], sep, k)
      ensures false
    {
      forall m | 0 <= m < |sep| ensures t[i + k + m] == sep[m] {
        assert t[i..j][k..k + |sep|][m] == t[i + k + m];
      }
      assert t[i + k..i + k + |sep|] == sep;
      assert MatchAt(t, sep, i + k);
    }
  }

  /** Stripping a chunk free of `sep` leaves it free of `sep`. */
  lemma KeptKeepsFree(c: string, sep: string)
    requires Free(c, sep)
    ensures forall i :: 0 <= i < |Kept(c)| ==> Free(Kept(c)[i], sep)
  {
    var i, j :| 0 <= i <= j <= |c| && Strip(c) == c[i..j] && AllSpace(c[..i]) && AllSpace(c[j..]);
    SliceIsFree(c, sep, i, j);
  }

  lemma {:induction false} KeepNonBlankKeepsFree(chunks: seq<string>, sep: string)
    requires forall j :: 0 <= j < |chunks| ==> Free(chunks[j], sep)
    ensures forall i :: 0 <= i < |KeepNonBlank(chunks)| ==> Free(KeepNonBlank(chunks)[i], sep)
  {
    if chunks != [] {
      var head := Kept(chunks[0]);
      var rest := KeepNonBlank(chunks[1..]);
      KeptKeepsFree(chunks[0], sep);
      forall j | 0 <= j < |chunks[1..]| ensures Free(chunks[1..][j], sep) {
        assert chunks[1..][j] == chunks[j + 1];
      }
      KeepNonBlankKeepsFree(chunks[1..], sep);
      assert KeepNonBlank(chunks) == head + rest;
      forall i | 0 <= i < |head + rest| ensures Free((head + rest)[i], sep) {
        if i >= |head| {
          assert (head + rest)[i] == rest[i - |head|];
        }
      }
    }
  }

  /** Distinct slide numbers give distinct titles. */
  lemma SlideTitleInjective(m: nat, n: nat)
    ensures SlideTitle(m) == SlideTitle(n) <==> m == n
  {
  }

  /**
   `create_ppt_with_text_and_image`: the title slide, the picture slide, then
   content slide i (from 1) titled "Slide i" holding the i-th paragraph in
   18 pt. Blank text gives exactly the two fixed slides, no content slide is
   blank, and content slide titles are pairwise distinct.
   */
  method BuildDeck(text: string, picture: Image) returns (deck: seq<Slide>)
    ensures |deck| == 2 + |Paragraphs(text)|
    ensures deck[0] == TitleSlide(DeckTitle, DeckSubtitle)
    ensures deck[1] == PictureSlide(picture, PictureLeft, PictureTop, PictureWidth)
    ensures forall i :: 0 <= i < |Paragraphs(text)| ==>
              deck[i + 2] == ContentSlide(SlideTitle(i + 1), Paragraphs(text)[i], BodyPt)
    ensures |deck| == 2 <==> IsBlank(text)
    ensures forall i :: 2 <= i < |deck| ==> deck[i].ContentSlide? && !IsBlank(deck[i].body)
    ensures forall i, j :: 2 <= i < j < |deck| ==> deck[i].title != deck[j].title
  {
    var contents := Paragraphs(text);
    deck := AssembleDeck(contents, picture);
    ContentSlidesNonBlank(deck, contents);
  }

  /**
   The title slide, the picture slide, then one numbered content slide per
   entry of `contents`; content slide titles are pairwise distinct.
   */
  method AssembleDeck(contents: seq<string>, picture: Image) returns (deck: seq<Slide>)
    ensures |deck| == 2 + |contents|
    ensures deck[0] == TitleSlide(DeckTitle, DeckSubtitle)
    ensures deck[1] == PictureSlide(picture, PictureLeft, PictureTop, PictureWidth)
    ensures forall i :: 0 <= i < |contents| ==> deck[i + 2] == ContentSlide(SlideTitle(i + 1), contents[i], BodyPt)
    ensures forall i :: 2 <= i < |deck| ==> deck[i].ContentSlide?
    ensures forall i, j :: 2 <= i < j < |deck| ==> deck[i].title != deck[j].title
  {
    deck := [TitleSlide(DeckTitle, DeckSubtitle), PictureSlide(picture, PictureLeft, PictureTop, PictureWidth)];
    var n := 0;
    while n < |contents|
      invariant 0 <= n <= |contents|
      invariant |deck| == 2 + n
      invariant deck[0] == TitleSlide(DeckTitle, DeckSubtitle)
      invariant deck[1] == PictureSlide(picture, PictureLeft, PictureTop, PictureWidth)
      invariant forall i :: 0 <= i < n ==> deck[i + 2] == ContentSlide(SlideTitle(i + 1), contents[i], BodyPt)
    {
      deck := deck + [ContentSlide(SlideTitle(n + 1), contents[n], BodyPt)];
      n := n + 1;
    }
    ContentSlideTitlesDistinct(deck, contents);
  }

  /** Content slides built over non-blank paragraphs have non-blank bodies. */
  lemma ContentSlidesNonBlank(deck: seq<Slide>, contents: seq<string>)
    requires |deck| == 2 + |contents|
    requires forall i :: 0 <= i < |contents| ==> !IsBlank(contents[i])
    requires forall i :: 0 <= i < |contents| ==> deck[i + 2] == ContentSlide(SlideTitle(i + 1), contents[i], BodyPt)
    ensures forall i :: 2 <= i < |deck| ==> deck[i].ContentSlide? && !IsBlank(deck[i].body)
  {
    forall i | 2 <= i < |deck|
      ensures deck[i].ContentSlide? && !IsBlank(deck[i].body)
    {
      assert deck[i] == ContentSlide(SlideTitle(i - 1), contents[i - 2], BodyPt);
    }
  }

  /** Content slides numbered from 1 carry pairwise distinct titles. */
  lemma ContentSlideTitlesDistinct(deck: seq<Slide>, contents: seq<string>)
    requires |deck| == 2 + |contents|
    requires forall i :: 0 <= i < |contents| ==> deck[i + 2] == ContentSlide(SlideTitle(i + 1), contents[i], BodyPt)
    ensures forall i :: 2 <= i < |deck| ==> deck[i].ContentSlide?
    ensures forall i, j :: 2 <= i < j < |deck| ==> deck[i].title != deck[j].title
  {
    forall i | 2 <= i < |deck|
      ensures deck[i] == ContentSlide(SlideTitle(i - 1), contents[i - 2], BodyPt)
    {
      assert deck[(i - 2) + 2] == ContentSlide(SlideTitle((i - 2) + 1), contents[i - 2], BodyPt);
    }
    forall i, j | 2 <= i < j < |deck|
      ensures deck[i].title != deck[j].title
    {
      SlideTitleInjective(i - 1, j - 1);
    }
  }

  /** The worked example "Hello world\n\nSecond idea", step by step. */
  const ExampleText: string := "Hello world\n\nSecond idea"

  lemma ExampleFirstSeparator()
    ensures Find(ExampleText, ParagraphSeparator, 0) == Some(11)
  {
    assert MatchAt(ExampleText, ParagraphSeparator, 11);
    forall k: nat | k < 11 ensures !MatchAt(ExampleText, ParagraphSeparator, k) {
      assert ExampleText[k] != '\n';
    }
    FindIsLeftmost(ExampleText, ParagraphSeparator, 0, 11);
  }

  lemma ExampleNoFurtherSeparator()
    ensures Find(ExampleText, ParagraphSeparator, 13) == None
  {
    forall k: nat | 13 <= k <= |ExampleText| ensures !MatchAt(ExampleText, ParagraphSeparator, k) {
      if k < |ExampleText| { assert ExampleText[k] != '\n'; }
    }
    FindNone(ExampleText, ParagraphSeparator, 13);
  }

  /** A text with exactly one separator splits into the two sides of it. */
  lemma SplitAtOnlySeparator(s: string, i: nat)
    requires Find(s, ParagraphSeparator, 0) == Some(i)
    requires Find(s, ParagraphSeparator, i + 2) == None
    ensures Split(s, ParagraphSeparator) == [s[..i], s[i + 2..]]
  {
    assert SplitFrom(s, ParagraphSeparator, i + 2) == [s[i + 2..]];
  }

  lemma ExampleSplit()
    ensures Split(ExampleText, ParagraphSeparator) == ["Hello world", "Second idea"]
  {
    ExampleFirstSeparator();
    ExampleNoFurtherSeparator();
    SplitAtOnlySeparator(ExampleText, 11);
    ExampleSides();
  }

  lemma ExampleSides()
    ensures ExampleText[..11] == "Hello world"
    ensures ExampleText[13..] == "Second idea"
  {
  }

  lemma ExampleStrip()
    ensures Strip("Hello world") == "Hello world"
    ensures Strip("Second idea") == "Second idea"
  {
    StripUnpadded("Hello world");
    StripUnpadded("Second idea");
  }

  /** The worked example splits into exactly two paragraphs. */
  lemma TwoParagraphExample()
    ensures Paragraphs(ExampleText) == ["Hello world", "Second idea"]
  {
    ExampleSplit();
    ExampleStrip();
    KeepNonBlankAppend(["Hello world"], ["Second idea"]);
    KeepNonBlankSingle("Hello world");
    KeepNonBlankSingle("Second idea");
    assert ["Hello world"] + ["Second idea"] == ["Hello world", "Second idea"];
  }

  /** The deck for the worked example: the two fixed slides and two content slides. */
  method ExampleDeck(picture: Image) returns (deck: seq<Slide>)
    ensures |deck| == 4
    ensures deck[2] == ContentSlide("Slide 1", "Hello world", BodyPt)
    ensures deck[3] == ContentSlide("Slide 2", "Second idea", BodyPt)
  {
    TwoParagraphExample();
    ExampleTitles();
    deck := BuildDeck(ExampleText, picture);
    assert deck[2] == ContentSlide(SlideTitle(1), Paragraphs(ExampleText)[0], BodyPt);
    assert deck[3] == ContentSlide(SlideTitle(2), Paragraphs(ExampleText)[1], BodyPt);
  }

  lemma ExampleTitles()
    ensures SlideTitle(1) == "Slide 1" && SlideTitle(2) == "Slide 2"
  {
    assert Decimal(1) == "1" && Decimal(2) == "2";
  }
}

=== FILE: extraction.dfy ===
/**
 The text-extraction fallback of the upload page: a cloud vision-language
 model (Gemini) is tried first when an API key is configured, and the local
 OCR engine (Tesseract) is the fallback. Both engines, and the choice of the
 automatic (Otsu) cutoff, are external and appear here as parameters.
 */
module Extraction {
  import opened Wrappers
  import opened PyText
  import opened Imaging

  datatype Engine = Gemini | Tesseract

  /** What `model.generate_content(...)` does: return a response, which may
      lack a `text` attribute, or raise. */
  datatype GeminiOutcome = Responded(text: Option<string>) | GeminiRaised(message: string)

  /** What `pytesseract.image_to_string(...)` does: return text or raise. */
  datatype OcrOutcome = Recognised(text: string) | OcrRaised(message: string)

  /**
   The environment and the external engines: the `GEMINI_API_KEY` variable
   (None when unset), the cloud model's answer for an image, the cutoff Otsu's
   method picks for a plane, and the OCR engine's answer for a binary plane.
   */
  datatype Services = Services(
    apiKey: Option<string>,
    gemini: Image -> GeminiOutcome,
    otsu: Raster -> Byte,
    ocr: Raster -> OcrOutcome)

  /** The text an extraction yields and the engines it consulted, in order. */
  datatype Extraction = Extraction(text: string, consulted: seq<Engine>)

  /** `if os.getenv("GEMINI_API_KEY")`: set and non-empty. */
  predicate KeyConfigured(key: Option<string>) {
    key.Some? && key.value != ""
  }

  /**
   `extract_text_with_gemini`: the response text, or "" when the response has
   no text or the call raised. It never raises.
   */
  function GeminiText(outcome: GeminiOutcome): (t: string)
    ensures t != "" ==> outcome.Responded? && outcome.text == Some(t)
    ensures outcome.Responded? && outcome.text.Some? ==> t == outcome.text.value
  {
    match outcome
    case Responded(Some(text)) => text
    case Responded(None) => ""
    case GeminiRaised(_) => ""
  }

  /** The OCR engine's text, or "" when it raised. */
  function OcrText(outcome: OcrOutcome): (t: string)
    ensures outcome.OcrRaised? ==> t == ""
    ensures outcome.Recognised? ==> t == outcome.text
  {
    match outcome
    case Recognised(text) => text
    case OcrRaised(_) => ""
  }

  /** Otsu binarisation of a plane followed by the OCR engine in block mode. */
  function OcrOnPlane(svc: Services, plane: Raster): (t: string)
    ensures var outcome := svc.ocr(Threshold(plane, svc.otsu(plane), White));
            (outcome.Recognised? ==> t == outcome.text) && (outcome.OcrRaised? ==> t == "")
  {
    OcrText(svc.ocr(Threshold(plane, svc.otsu(plane), White)))
  }

  /**
   `extract_text_with_tesseract` as written: it always converts its input
   from RGB to gray first, and maps any exception to "".
   */
  function TesseractTextAsWritten(svc: Services, img: Image): (t: string)
    ensures img.channels == 3 || img.channels == 4 ==> t == OcrOnPlane(svc, img.luma)
    ensures !(img.channels == 3 || img.channels == 4) ==> t == ""
  {
    match ToGray(img)
    case Failure(_) => ""
    case Success(gray) => OcrOnPlane(svc, gray)
  }

  /**
   The pipeline hands Tesseract the already binarised, single-channel image,
   so the RGB-to-gray step raises and the as-written fallback yields "" no
   matter what the OCR engine would have read.
   */
  lemma TesseractAsWrittenIgnoresEngine(svc: Services, original: Image)
    requires Preprocess(original).Success?
    ensures TesseractTextAsWritten(svc, Preprocess(original).value) == ""
  {
  }

  /**
   `extract_text_with_tesseract` as intended: a plane that is already
   single-channel is used as it is, a colour image is converted to gray;
   either way the OCR engine reads its Otsu-binarised plane. A channel count
   OpenCV cannot convert, or an engine failure, yields "".
   */
  function TesseractText(svc: Services, img: Image): (t: string)
    ensures img.channels == 1 || img.channels == 3 || img.channels == 4 ==> t == OcrOnPlane(svc, img.luma)
    ensures !(img.channels == 1 || img.channels == 3 || img.channels == 4) ==> t == ""
  {
    if img.channels == 1 then OcrOnPlane(svc, img.luma)
    else match ToGray(img)
      case Failure(_) => ""
      case Success(gray) => OcrOnPlane(svc, gray)
  }

  /**
   The selection rule of `extract_text_with_ocr`: the Gemini text is taken
   only when a key is configured and that text is not blank; otherwise the
   Tesseract text is taken, and Tesseract is consulted in exactly that case.
   */
  function Select(configured: bool, geminiText: string, tesseractText: string): (r: Extraction)
    ensures Gemini in r.consulted <==> configured
    ensures Tesseract in r.consulted <==> !(configured && !IsBlank(geminiText))
    ensures configured && !IsBlank(geminiText) ==> r.text == geminiText
    ensures !(configured && !IsBlank(geminiText)) ==> r.text == tesseractText
    ensures |r.consulted| == 2 ==> r.consulted == [Gemini, Tesseract]
  {
    if configured && !IsBlank(geminiText) then Extraction(geminiText, [Gemini])
    else if configured then Extraction(tesseractText, [Gemini, Tesseract])
    else Extraction(tesseractText, [Tesseract])
  }

  /**
   `extract_text_with_ocr` with the corrected Tesseract step. A non-blank
   cloud answer under a configured key is returned verbatim without running
   the local engine; otherwise the result is the local engine's reading of
   the Otsu-binarised plane of a single-channel image.
   */
  function ExtractText(svc: Services, img: Image): (r: Extraction)
    ensures KeyConfigured(svc.apiKey) && !IsBlank(GeminiText(svc.gemini(img))) ==>
              r.text == GeminiText(svc.gemini(img)) && r.consulted == [Gemini]
    ensures !(KeyConfigured(svc.apiKey) && !IsBlank(GeminiText(svc.gemini(img)))) ==>
              Tesseract in r.consulted && r.text == TesseractText(svc, img)
    ensures img.channels == 1 && !(KeyConfigured(svc.apiKey) && !IsBlank(GeminiText(svc.gemini(img)))) ==>
              r.text == OcrOnPlane(svc, img.luma)
  {
    Select(KeyConfigured(svc.apiKey), GeminiText(svc.gemini(img)), TesseractText(svc, img))
  }

  /**
   `extract_text_with_ocr` exactly as written: the same selection, but for a
   single-channel image the fallback contributes nothing.
   */
  function ExtractTextAsWritten(svc: Services, img: Image): (r: Extraction)
    ensures KeyConfigured(svc.apiKey) && !IsBlank(GeminiText(svc.gemini(img))) ==>
              r.text == GeminiText(svc.gemini(img)) && r.consulted == [Gemini]
    ensures !(KeyConfigured(svc.apiKey) && !IsBlank(GeminiText(svc.gemini(img)))) ==>
              Tesseract in r.consulted && r.text == TesseractTextAsWritten(svc, img)
    ensures img.channels == 1 && !(KeyConfigured(svc.apiKey) && !IsBlank(GeminiText(svc.gemini(img)))) ==>
              r.text == ""
  {
    Select(KeyConfigured(svc.apiKey), GeminiText(svc.gemini(img)), TesseractTextAsWritten(svc, img))
  }

  /** One strategy of an ordered fallback list and the text it produced. */
  datatype Attempt = Attempt(engine: Engine, output: string)

  /**
   Reference reading of the fallback: try the strategies in order and stop at
   the first non-blank output; the last strategy's output is taken as it is.
   */
  function RunStrategies(attempts: seq<Attempt>): Extraction
    requires |attempts| >= 1
  {
    if |attempts| == 1 || !IsBlank(attempts[0].output) then
      Extraction(attempts[0].output, [attempts[0].engine])
    else
      var rest := RunStrategies(attempts[1..]);
      Extraction(rest.text, [attempts[0].engine] + rest.consulted)
  }

  /** The selection rule is the ordered list [Gemini if configured, Tesseract]. */
  lemma SelectIsStrategyList(configured: bool, geminiText: string, tesseractText: string)
    ensures Select(configured, geminiText, tesseractText)
         == RunStrategies((if configured then [Attempt(Gemini, geminiText)] else []) + [Attempt(Tesseract, tesseractText)])
  {
  }

  /**
   When the cloud model answers with non-blank text under a configured key,
   that text is the result verbatim and the local engine is never invoked.
   A corollary of `ExtractText`'s contract, stated on its own as the cloud
   half of the corrected extraction.
   */
  lemma CloudTextWins(svc: Services, img: Image)
    requires KeyConfigured(svc.apiKey)
    requires svc.gemini(img).Responded? && svc.gemini(img).text.Some?
    requires !IsBlank(svc.gemini(img).text.value)
    ensures ExtractText(svc, img).text == svc.gemini(img).text.value
    ensures ExtractText(svc, img).consulted == [Gemini]
  {
  }

  /**
   Otherwise, the result is the OCR engine's reading of the Otsu-binarised
   plane of the (preprocessed, single-channel) image. A corollary of
   `ExtractText`'s contract, stated on its own as the corrected counterpart
   of `AsWrittenFallbackAlwaysEmpty`.
   */
  lemma FallbackReadsOtsuPlane(svc: Services, img: Image)
    requires img.channels == 1
    requires !KeyConfigured(svc.apiKey) || IsBlank(GeminiText(svc.gemini(img)))
    ensures ExtractText(svc, img).text == OcrText(svc.ocr(Threshold(img.luma, svc.otsu(img.luma), White)))
    ensures Tesseract in ExtractText(svc, img).consulted
  {
  }

  /** Extraction never fails: with every engine failing the result is "". */
  lemma AllFailuresYieldEmpty(svc: Services, img: Image)
    requires svc.gemini(img).GeminiRaised? || !KeyConfigured(svc.apiKey)
    requires svc.ocr(Threshold(img.luma, svc.otsu(img.luma), White)).OcrRaised?
    ensures ExtractText(svc, img).text == ""
  {
  }

  /**
   As written, a preprocessed upload for which Gemini gives nothing always
   extracts to "": the local fallback can never contribute text.
   */
  lemma AsWrittenFallbackAlwaysEmpty(svc: Services, original: Image)
    requires Preprocess(original).Success?
    requires !KeyConfigured(svc.apiKey) || IsBlank(GeminiText(svc.gemini(Preprocess(original).value)))
    ensures ExtractTextAsWritten(svc, Preprocess(original).value).text == ""
  {
  }

  /**
   A concrete witness: no key, a 1x1 RGB photo, and an OCR engine that reads
   "x" from anything. The corrected pipeline extracts "x"; the pipeline as
   written extracts "".
   */
  lemma AsWrittenCounterexample()
    ensures var svc := Services(None, _ => GeminiRaised("unused"), _ => 0, _ => Recognised("x"));
            var processed := Preprocess(Image(3, [[200]])).value;
            ExtractTextAsWritten(svc, processed).text == "" && ExtractText(svc, processed).text == "x"
  {
  }
}

=== FILE: imaging.dfy ===
/**
 Grayscale rasters and OpenCV's fixed-threshold binarisation
 (`cv2.threshold(gray, thresh, maxval, cv2.THRESH_BINARY)`).
 */
module Imaging {
  import opened Wrappers

  /** One 8-bit intensity value. */
  type Byte = x: int | 0 <= x < 256

  /** A single-channel image, row by row. */
  type Raster = seq<seq<Byte>>

  /**
   An image as `np.array(image)` sees it: its number of colour channels
   (1 for a grayscale image, 3 for RGB, 4 for RGBA) and the intensity plane
   the RGB-to-gray conversion yields for it. For a single-channel image the
   plane is the image itself.
   */
  datatype Image = Image(channels: nat, luma: Raster)

  /** The fixed cutoff used before text extraction. */
  const FixedThreshold: Byte := 150

  /** The value written where a pixel is above the cutoff (white). */
  const White: Byte := 255

  predicate SameShape(a: Raster, b: Raster) {
    |a| == |b| && forall y :: 0 <= y < |a| ==> |a[y]| == |b[y]|
  }

  /**
   THRESH_BINARY: every pixel strictly above `thresh` becomes `maxval`, every
   other pixel becomes 0; the shape is kept.
   */
  function Threshold(plane: Raster, thresh: int, maxval: Byte): (r: Raster)
    ensures SameShape(r, plane)
    ensures forall y, x :: 0 <= y < |r| && 0 <= x < |r[y]| ==>
              r[y][x] == (if plane[y][x] > thresh then maxval else 0)
  {
    seq(|plane|, y requires 0 <= y < |plane| =>
      seq(|plane[y]|, x requires 0 <= x < |plane[y]| =>
        if plane[y][x] > thresh then maxval else 0 as Byte))
  }

  /**
   `cv2.cvtColor(img, cv2.COLOR_RGB2GRAY)`: defined for 3- and 4-channel
   images only; any other channel count raises.
   */
  function ToGray(img: Image): (r: Result<Raster, string>)
    ensures r.Success? <==> img.channels == 3 || img.channels == 4
    ensures r.Success? ==> r.value == img.luma
  {
    if img.channels == 3 || img.channels == 4 then Success(img.luma)
    else Failure("Invalid number of channels in input image")
  }

  /**
   `preprocess_image`: gray conversion followed by the fixed threshold of 150
   with white 255; the result is a single-channel image.
   */
  function Preprocess(img: Image): (r: Result<Image, string>)
    ensures r.Success? <==> ToGray(img).Success?
  {
    match ToGray(img)
    case Failure(e) => Failure(e)
    case Success(gray) => Success(Image(1, Threshold(gray, FixedThreshold, White)))
  }

  /**
   A preprocessed image is single-channel, keeps the input's shape, and is
   pure black and white: a pixel is 255 exactly when the input intensity is
   above 150 and 0 otherwise.
   */
  lemma PreprocessIsBinary(img: Image)
    requires Preprocess(img).Success?
    ensures Preprocess(img).value.channels == 1
    ensures SameShape(Preprocess(img).value.luma, img.luma)
    ensures forall y, x :: 0 <= y < |img.luma| && 0 <= x < |img.luma[y]| ==>
              var p := Preprocess(img).value.luma[y][x];
              (p == 0 || p == 255) && (p == 255 <==> img.luma[y][x] > 150)
  {
  }

  /**
   Thresholding a black-and-white result again, at any cutoff below white,
   changes nothing. The fixed policy applied twice, and the automatic policy
   (whose cutoff on a two-valued image lies below 255) applied after either,
   both fall under this.
   */
  lemma ThresholdIdempotent(plane: Raster, t: int, t': int)
    requires 0 <= t' < White
    ensures Threshold(Threshold(plane, t, White), t', White) == Threshold(plane, t, White)
  {
    var once := Threshold(plane, t, White);
    var twice := Threshold(once, t', White);
    assert |twice| == |once|;
    forall y | 0 <= y < |once|
      ensures twice[y] == once[y]
    {
      assert |twice[y]| == |once[y]|;
      forall x | 0 <= x < |once[y]|
        ensures twice[y][x] == once[y][x]
      {
      }
    }
  }

  /** Preprocessing is idempotent on its own output. */
  lemma PreprocessIdempotent(img: Image)
    requires Preprocess(img).Success?
    ensures Threshold(Preprocess(img).value.luma, FixedThreshold, White) == Preprocess(img).value.luma
  {
    ThresholdIdempotent(img.luma, FixedThreshold, FixedThreshold);
  }
}

=== FILE: navigation.dfy ===
/**
 The session and page router: which of the three pages is shown, whether the
 user is logged in and as whom, and how each button press moves between
 pages. One event is handled per script run, on the page being rendered.
 */
module Navigation {
  import opened Wrappers
  import opened Accounts
  import opened Pipeline

  datatype Page = Home | Login | Upload

  datatype Session = Session(page: Page, loggedIn: bool, username: string)

  /** A fresh browser session. */
  const Initial: Session := Session(Home, false, "")

  /** The buttons and forms a user can press or submit. */
  datatype Event =
    | GetStarted
    | SubmitLogin(username: string, password: string)
    | SubmitSignup(form: SignupForm)
    | BackToHome
    | Logout

  /**
   What a run sees besides the session: whether the database URI is set
   (without it the login page shows only an error), the password hash, and
   the upload panel's current state (None before a file is chosen).
   */
  datatype Env = Env(storeConfigured: bool, hash: string -> string, panel: Option<UploadView>)

  datatype State = State(session: Session, users: seq<UserRecord>)

  /**
   The check at the top of the upload page: rendering it while logged out
   sends the user to the login page.
   */
  function Guard(s: Session): (r: Session)
    ensures r.page == Upload ==> r.loggedIn
    ensures r.loggedIn == s.loggedIn && r.username == s.username
    ensures r.page != s.page <==> s.page == Upload && !s.loggedIn
    ensures s.page == Upload && !s.loggedIn ==> r.page == Login
  {
    if s.page == Upload && !s.loggedIn then s.(page := Login) else s
  }

  /** The upload page shows Logout and Back to Home before a file is chosen
      and after text was found, and neither otherwise. */
  predicate ButtonsShown(panel: Option<UploadView>) {
    panel.None? || panel.value.Ready?
  }

  /**
   One run of the script: the router renders the current page and handles
   the event if that page offers it. Only the login page's sign-up form
   changes the users; only a successful login reaches the upload page.
   */
  function Step(st: State, env: Env, e: Event): (r: State)
    ensures r.users != st.users ==> st.session.page == Login && e.SubmitSignup?
    ensures r.session.page == Upload && st.session.page != Upload ==>
              && e.SubmitLogin? && st.session.page == Login && env.storeConfigured
              && Authenticate(st.users, e.username, e.password, env.hash)
              && r.session == Session(Upload, true, e.username)
    ensures r.session.loggedIn && !st.session.loggedIn ==> e.SubmitLogin?
    ensures e.SubmitSignup? ==> r.session == Guard(st.session)
    ensures r.session != Guard(st.session) ==>
              || (st.session.page == Home && e.GetStarted?)
              || (st.session.page == Login && (e.SubmitLogin? || e.BackToHome?))
              || (st.session.page == Upload && (e.Logout? || e.BackToHome?))
  {
    var s := Guard(st.session);
    if s != st.session then State(s, st.users)
    else match s.page
      case Home =>
        if e.GetStarted? then State(s.(page := Login), st.users) else st
      case Login =>
        if !env.storeConfigured then st
        else (match e
          case SubmitLogin(u, p) =>
            if Authenticate(st.users, u, p, env.hash)
            then State(s.(loggedIn := true, username := u, page := Upload), st.users)
            else st
          case SubmitSignup(form) => State(s, Signup(st.users, form, env.hash).users)
          case BackToHome => State(s.(page := Home), st.users)
          case _ => st)
      case Upload =>
        if !ButtonsShown(env.panel) then st
        else (match e
          case Logout => State(s.(loggedIn := false, page := Login), st.users)
          case BackToHome => State(s.(page := Home), st.users)
          case _ => st)
  }

  /** Get Started moves from the landing page to the login page. */
  lemma GetStartedOpensLogin(s: Session, users: seq<UserRecord>, env: Env)
    requires s.page == Home
    ensures Step(State(s, users), env, GetStarted) == State(s.(page := Login), users)
  {
  }

  /**
   A login attempt reaches the upload page, logged in as the given user,
   exactly when a record pairs that username with the hash of the password;
   otherwise nothing changes.
   */
  lemma LoginTransition(s: Session, users: seq<UserRecord>, env: Env, u: string, p: string)
    requires s.page == Login && env.storeConfigured && Unique(users)
    ensures var r := Step(State(s, users), env, SubmitLogin(u, p));
            && r.users == users
            && ((exists j :: 0 <= j < |users| && users[j].username == u && users[j].password == env.hash(p))
                  <==> r.session == Session(Upload, true, u))
            && (r.session != Session(Upload, true, u) ==> r.session == s)
  {
    AuthenticateIff(users, u, p, env.hash);
  }

  /** Logout clears the flag and shows the login page; the username stays. */
  lemma LogoutKeepsUsername(s: Session, users: seq<UserRecord>, env: Env)
    requires s.page == Upload && s.loggedIn && ButtonsShown(env.panel)
    ensures Step(State(s, users), env, Logout) == State(Session(Login, false, s.username), users)
  {
  }

  /** Back to Home from the login or the upload page changes only the page. */
  lemma BackToHomeOnlyMovesPage(s: Session, users: seq<UserRecord>, env: Env)
    requires (s.page == Login && env.storeConfigured) || (s.page == Upload && s.loggedIn && ButtonsShown(env.panel))
    ensures Step(State(s, users), env, BackToHome) == State(s.(page := Home), users)
  {
  }

  /**
   After "No text detected" or a processing error the upload page renders
   neither Logout nor Back to Home, so no event changes anything.
   */
  lemma UploadButtonsHidden(s: Session, users: seq<UserRecord>, env: Env, e: Event)
    requires s.page == Upload && s.loggedIn && !ButtonsShown(env.panel)
    ensures Step(State(s, users), env, e) == State(s, users)
  {
  }

  /** Whatever is pressed, rendering the upload page logged out lands on the login page. */
  lemma LoggedOutUploadRedirects(s: Session, users: seq<UserRecord>, env: Env, e: Event)
    requires s.page == Upload && !s.loggedIn
    ensures Step(State(s, users), env, e) == State(s.(page := Login), users)
  {
  }

  /** The hash never yields the empty string, as a hex digest does not. */
  ghost predicate HashNonEmpty(env: Env) {
    forall p :: env.hash(p) != ""
  }

  /**
   What every reachable state satisfies: the store is well formed, the upload
   page is shown only to a logged-in user, and a logged-in user is registered.
   */
  predicate Invariant(st: State) {
    && WellFormed(st.users)
    && (st.session.page == Upload ==> st.session.loggedIn)
    && (st.session.loggedIn ==> exists j :: 0 <= j < |st.users| && st.users[j].username == st.session.username)
  }

  lemma InitialInvariant(users: seq<UserRecord>)
    requires WellFormed(users)
    ensures Invariant(State(Initial, users))
  {
  }

  lemma StepPreservesInvariant(st: State, env: Env, e: Event)
    requires Invariant(st) && HashNonEmpty(env)
    ensures Invariant(Step(st, env, e))
  {
    var r := Step(st, env, e);
    if st.session.page == Login && env.storeConfigured {
      match e {
        case SubmitSignup(form) =>
          SignupPreservesWellFormed(st.users, form, env.hash);
          var n := Signup(st.users, form, env.hash).users;
          if st.session.loggedIn {
            var j :| 0 <= j < |st.users| && st.users[j].username == st.session.username;
            assert n[j] == st.users[j];
          }
        case SubmitLogin(u, p) =>
        case _ =>
      }
    }
  }

  /** The session after a run of events. */
  function Run(st: State, steps: seq<(Env, Event)>): State
    decreases |steps|
  {
    if steps == [] then st else Run(Step(st, steps[0].0, steps[0].1), steps[1..])
  }

  lemma {:induction false} RunPreservesInvariant(st: State, steps: seq<(Env, Event)>)
    requires Invariant(st)
    requires forall i :: 0 <= i < |steps| ==> HashNonEmpty(steps[i].0)
    ensures Invariant(Run(st, steps))
    decreases |steps|
  {
    if steps != [] {
      StepPreservesInvariant(st, steps[0].0, steps[0].1);
      forall i | 0 <= i < |steps| - 1 ensures HashNonEmpty(steps[1..][i].0) {
        assert steps[1..][i] == steps[i + 1];
      }
      RunPreservesInvariant(Step(st, steps[0].0, steps[0].1), steps[1..]);
    }
  }

  /**
   From a fresh session over a well-formed store, no sequence of events ever
   shows the upload page to a logged-out user, so the redirect never fires.
   */
  lemma GuardNeverFiresWhenReachable(users: seq<UserRecord>, steps: seq<(Env, Event)>)
    requires WellFormed(users)
    requires forall i :: 0 <= i < |steps| ==> HashNonEmpty(steps[i].0)
    ensures var r := Run(State(Initial, users), steps);
            Guard(r.session) == r.session
  {
    InitialInvariant(users);
    RunPreservesInvariant(State(Initial, users), steps);
  }
}

=== FILE: pipeline.dfy ===
/**
 What the upload page does with one uploaded image: preprocess it, extract
 its text, and either report that no text was found or build the deck from
 the text and the original image.
 */
module Pipeline {
  import opened Wrappers
  import opened PyText
  import opened Imaging
  import opened Extraction
  import opened Deck

  /** What the page shows after an upload. */
  datatype UploadView =
    | ProcessingFailed(message: string)
    | NoTextDetected
    | Ready(text: string, deck: seq<Slide>)

  const ErrorPrefix: string := "An error occurred: "

  /**
   The upload handler. An image the preprocessing cannot convert ends in the
   generic error message; a blank extraction ends in "no text detected" with
   nothing to download; otherwise the deck is built from the extracted text
   and the ORIGINAL image, and it has at least one content slide.
   */
  method HandleUpload(original: Image, svc: Services) returns (view: UploadView)
    ensures view.ProcessingFailed? <==> Preprocess(original).Failure?
    ensures view.NoTextDetected? <==>
              Preprocess(original).Success? && IsBlank(ExtractText(svc, Preprocess(original).value).text)
    ensures view.Ready? ==>
              && Preprocess(original).Success?
              && view.text == ExtractText(svc, Preprocess(original).value).text
              && !IsBlank(view.text)
              && |view.deck| == 2 + |Paragraphs(view.text)| >= 3
              && view.deck[0] == TitleSlide(DeckTitle, DeckSubtitle)
              && view.deck[1] == PictureSlide(original, PictureLeft, PictureTop, PictureWidth)
              && forall i :: 0 <= i < |Paragraphs(view.text)| ==>
                   view.deck[i + 2] == ContentSlide(SlideTitle(i + 1), Paragraphs(view.text)[i], BodyPt)
  {
    match Preprocess(original)
    case Failure(e) =>
      view := ProcessingFailed(ErrorPrefix + e);
    case Success(processed) =>
      var extracted := ExtractText(svc, processed).text;
      if IsBlank(extracted) {
        view := NoTextDetected;
      } else {
        var deck := BuildDeck(extracted, original);
        view := Ready(extracted, deck);
      }
  }
}

=== FILE: pytext.dfy ===
/**
 The three pieces of Python's `str` behaviour the application relies on:
 `strip()` with no arguments, `split(sep)` with a non-empty separator, and
 the decimal rendering of a non-negative `int` inside an f-string.
 */
module PyText {
  import opened Wrappers

  /** `c.isspace()`: the characters Python's whitespace `strip()` removes. */
  predicate IsSpace(c: char) {
    || ('\t' <= c <= '\r')               // \t \n \v \f \r
    || ('\U{1C}' <= c <= '\U{1F}')       // file, group, record and unit separators
    || c == ' '
    || c == '\U{85}' || c == '\U{A0}' || c == '\U{1680}'
    || ('\U{2000}' <= c <= '\U{200A}')
    || c == '\U{2028}' || c == '\U{2029}' || c == '\U{202F}' || c == '\U{205F}' || c == '\U{3000}'
  }

  predicate AllSpace(s: string) {
    forall i :: 0 <= i < |s| ==> IsSpace(s[i])
  }

  /** Index of the first non-space character at or after `i` (or `|s|`). */
  function SkipSpaces(s: string, i: nat): (r: nat)
    requires i <= |s|
    ensures i <= r <= |s|
    ensures forall k :: i <= k < r ==> IsSpace(s[k])
    ensures r < |s| ==> !IsSpace(s[r])
    decreases |s| - i
  {
    if i < |s| && IsSpace(s[i]) then SkipSpaces(s, i + 1) else i
  }

  /** Index just past the last non-space character in `s[lo..j]` (or `lo`). */
  function SkipSpacesBack(s: string, lo: nat, j: nat): (r: nat)
    requires lo <= j <= |s|
    ensures lo <= r <= j
    ensures forall k :: r <= k < j ==> IsSpace(s[k])
    ensures r > lo ==> !IsSpace(s[r - 1])
    decreases j
  {
    if j > lo && IsSpace(s[j - 1]) then SkipSpacesBack(s, lo, j - 1) else j
  }

  /**
   `s.strip()`: the slice of `s` that remains once the spaces on both ends
   are gone. It neither starts nor ends with a space, and everything cut
   away on either side is space.
   */
  function Strip(s: string): (r: string)
    ensures r == [] || (!IsSpace(r[0]) && !IsSpace(r[|r| - 1]))
    ensures exists i, j :: 0 <= i <= j <= |s| && r == s[i..j] && AllSpace(s[..i]) && AllSpace(s[j..])
  {
    var i := SkipSpaces(s, 0);
    var j := SkipSpacesBack(s, i, |s|);
    assert AllSpace(s[..i]) by {
      forall k | 0 <= k < i ensures IsSpace(s[..i][k]) {
        assert s[..i][k] == s[k];
      }
    }
    assert AllSpace(s[j..]) by {
      forall k | 0 <= k < |s| - j ensures IsSpace(s[j..][k]) {
        assert s[j..][k] == s[j + k];
      }
    }
    s[i..j]
  }

  /** `not s.strip()`: Python's truth test on a stripped string. */
  predicate IsBlank(s: string) {
    Strip(s) == []
  }

  /** A string strips to nothing exactly when every character is a space. */
  lemma BlankIffAllSpace(s: string)
    ensures IsBlank(s) <==> AllSpace(s)
  {
  }

  /** A string with no space at either end is its own strip. */
  lemma StripUnpadded(s: string)
    requires s == [] || (!IsSpace(s[0]) && !IsSpace(s[|s| - 1]))
    ensures Strip(s) == s
  {
    assert SkipSpaces(s, 0) == 0;
    assert SkipSpacesBack(s, 0, |s|) == |s|;
    assert s[0..|s|] == s;
  }

  /** Stripping is idempotent. */
  lemma StripIdempotent(s: string)
    ensures Strip(Strip(s)) == Strip(s)
  {
  }

  /** `sep` occurs in `s` starting at index `k`. */
  predicate MatchAt(s: string, sep: string, k: nat) {
    k + |sep| <= |s| && s[k..k + |sep|] == sep
  }

  /** `sep not in s`. */
  predicate Free(s: string, sep: string) {
    forall k: nat :: k <= |s| ==> !MatchAt(s, sep, k)
  }

  /** `s.find(sep, from)`: the leftmost occurrence of `sep` at or after `from`. */
  function Find(s: string, sep: string, from: nat): (r: Option<nat>)
    requires sep != []
    ensures r.Some? ==> from <= r.value && MatchAt(s, sep, r.value)
    ensures r.Some? ==> forall k: nat :: from <= k < r.value ==> !MatchAt(s, sep, k)
    ensures r.None? ==> forall k: nat :: from <= k <= |s| ==> !MatchAt(s, sep, k)
    decreases |s| - from
  {
    if from + |sep| > |s| then None
    else if MatchAt(s, sep, from) then Some(from)
    else Find(s, sep, from + 1)
  }

  /** `Find` returns the leftmost occurrence at or after `from`, and nothing else. */
  lemma FindIsLeftmost(s: string, sep: string, from: nat, i: nat)
    requires sep != [] && from <= i && MatchAt(s, sep, i)
    requires forall k: nat :: from <= k < i ==> !MatchAt(s, sep, k)
    ensures Find(s, sep, from) == Some(i)
  {
  }

  /** `Find` returns nothing when no occurrence starts at or after `from`. */
  lemma FindNone(s: string, sep: string, from: nat)
    requires sep != []
    requires forall k: nat :: from <= k <= |s| ==> !MatchAt(s, sep, k)
    ensures Find(s, sep, from) == None
  {
  }

  /** A slice that ends before the first occurrence of `sep` after its start contains none. */
  lemma SliceBeforeMatchIsFree(s: string, sep: string, from: nat, i: nat)
    requires sep != [] && from <= i <= |s|
    requires forall k: nat :: from <= k < i ==> !MatchAt(s, sep, k)
    ensures Free(s[from..i], sep)
  {
    forall k: nat | k <= i - from && MatchAt(s[from..i], sep, k)
      ensures false
    {
      forall t | 0 <= t < |sep|
        ensures s[from + k + t] == sep[t]
      {
        assert s[from..i][k..k + |sep|][t] == s[from + k + t];
      }
      assert s[from + k..from + k + |sep|] == sep;
      assert MatchAt(s, sep, from + k);
    }
  }

  /**
   `piece` followed by `sep` holds no occurrence of `sep` before the one
   that closes it: the piece ends at the leftmost occurrence.
   */
  predicate EndsAtLeftmost(piece: string, sep: string) {
    forall k: nat :: k < |piece| ==> !MatchAt(piece + sep, sep, k)
  }

  /** The piece cut at the leftmost occurrence of `sep` after `from` ends there. */
  lemma PieceEndsAtLeftmost(s: string, sep: string, from: nat, i: nat)
    requires sep != [] && from <= i && MatchAt(s, sep, i)
    requires forall k: nat :: from <= k < i ==> !MatchAt(s, sep, k)
    ensures EndsAtLeftmost(s[from..i], sep)
  {
    var w := s[from..i + |sep|];
    assert s[from..i] + sep == w by {
      assert s[i..i + |sep|] == sep;
      assert s[from..i] + s[i..i + |sep|] == w;
    }
    forall k: nat | k < i - from && MatchAt(w, sep, k)
      ensures false
    {
      forall t | 0 <= t < |sep|
        ensures s[from + k + t] == sep[t]
      {
        assert w[k..k + |sep|][t] == s[from + k + t];
      }
      assert s[from + k..from + k + |sep|] == sep;
      assert MatchAt(s, sep, from + k);
    }
  }

  /** The pieces of `s[from..]` split on `sep`, as `s.split(sep)` produces them. */
  function SplitFrom(s: string, sep: string, from: nat): (r: seq<string>)
    requires sep != [] && from <= |s|
    ensures |r| >= 1
    ensures forall j :: 0 <= j < |r| ==> Free(r[j], sep)
    ensures forall j :: 0 <= j < |r| - 1 ==> EndsAtLeftmost(r[j], sep)
    decreases |s| - from
  {
    match Find(s, sep, from)
    case None =>
      SliceBeforeMatchIsFree(s, sep, from, |s|);
      assert s[from..] == s[from..|s|];
      [s[from..]]
    case Some(i) =>
      SliceBeforeMatchIsFree(s, sep, from, i);
      PieceEndsAtLeftmost(s, sep, from, i);
      [s[from..i]] + SplitFrom(s, sep, i + |sep|)
  }

  /**
   `s.split(sep)` for a non-empty separator: the pieces between successive
   leftmost occurrences of `sep`, scanning from the left. There is always at
   least one piece, no piece contains the separator, and every piece but the
   last ends at the leftmost occurrence after it starts.
   */
  function Split(s: string, sep: string): (r: seq<string>)
    requires sep != []
    ensures |r| >= 1
    ensures forall j :: 0 <= j < |r| ==> Free(r[j], sep)
    ensures forall j :: 0 <= j < |r| - 1 ==> EndsAtLeftmost(r[j], sep)
  {
    SplitFrom(s, sep, 0)
  }

  /** `sep.join(parts)`. */
  function Join(parts: seq<string>, sep: string): string
    requires |parts| >= 1
  {
    if |parts| == 1 then parts[0] else parts[0] + sep + Join(parts[1..], sep)
  }

  lemma {:induction false} JoinSplitFrom(s: string, sep: string, from: nat)
    requires sep != [] && from <= |s|
    ensures Join(SplitFrom(s, sep, from), sep) == s[from..]
    decreases |s| - from
  {
    match Find(s, sep, from)
    case None =>
    case Some(i) =>
      var rest := SplitFrom(s, sep, i + |sep|);
      JoinSplitFrom(s, sep, i + |sep|);
      assert SplitFrom(s, sep, from)[1..] == rest;
      assert s[from..] == s[from..i] + s[i..i + |sep|] + s[i + |sep|..];
  }

  /** Splitting loses nothing: joining the pieces back gives the input. */
  lemma JoinSplit(s: string, sep: string)
    requires sep != []
    ensures Join(Split(s, sep), sep) == s
  {
    JoinSplitFrom(s, sep, 0);
  }

  predicate IsDigit(c: char) {
    '0' <= c <= '9'
  }

  predicate AllDigits(s: string) {
    forall i :: 0 <= i < |s| ==> IsDigit(s[i])
  }

  function DigitChar(d: nat): (c: char)
    requires d < 10
    ensures IsDigit(c) && c as int - '0' as int == d
  {
    ('0' as int + d) as char
  }

  /**
   `str(n)` for a non-negative integer: its decimal digits, most significant
   first, with no leading zero except for `0` itself.
   */
  function Decimal(n: nat): (r: string)
    ensures r != [] && AllDigits(r)
    ensures r[0] == '0' ==> n == 0
    decreases n
  {
    if n < 10 then [DigitChar(n)] else Decimal(n / 10) + [DigitChar(n % 10)]
  }

  /** `int(s)` for a string of decimal digits. */
  function ParseDecimal(s: string): nat
    requires AllDigits(s)
  {
    if s == [] then 0 else ParseDecimal(s[..|s| - 1]) * 10 + (s[|s| - 1] as int - '0' as int)
  }

  /** Reading back the rendered digits gives the number rendered. */
  lemma {:induction false} ParseDecimalRoundTrip(n: nat)
    ensures ParseDecimal(Decimal(n)) == n
    decreases n
  {
    if n >= 10 {
      ParseDecimalRoundTrip(n / 10);
      var d := Decimal(n);
      assert d[..|d| - 1] == Decimal(n / 10);
    }
  }

  /** Distinct numbers render to distinct strings. */
  lemma DecimalInjective(m: nat, n: nat)
    requires Decimal(m) == Decimal(n)
    ensures m == n
  {
    ParseDecimalRoundTrip(m);
    ParseDecimalRoundTrip(n);
  }
}

=== FILE: wrappers.dfy ===
/** Failure-carrying values shared by the other modules. */
module Wrappers {

  /** An optional value: Python's `None` or a present value. */
  datatype Option<+T> = None | Some(value: T)

  /** The outcome of a step that can raise: a value or the message it raised with. */
  datatype Result<+T, +E> = Success(value: T) | Failure(error: E)
}
